=== FILE: README.md ===
# ID3 tagging after download, modelled in Dafny

yt-dlp-host is a download-on-demand service. A client submits a media URL and receives a task. The task is polled until it ends with a downloaded audio or video file. This project models the deterministic post-processing at the end of a download and the client-side checks made on its result:

- **Title split** (`TitleSplit`, built on `Text`). The title the download engine extracted is split at the first `" - "`, and both halves are stripped of whitespace. The result is an optional artist (TPE1) and a title (TIT2).
- **Frame rewrite** (`Id3`, `TagUpdate`). `_update_mp3_id3_tags(path, title)` checks that the file exists and ends in `.mp3`. It then deletes every TPE1 and TIT2 frame and adds the new pair with text encoding 3 (UTF-8). A file without an ID3 header gets an empty one first. A missing file, a non-MP3 path or a file the tag library cannot handle is logged and skipped, never raised. The disk is a map from path to file. A file's tag is a sequence of `(id, encoding, text)` frames.
- **Post-download dispatch** (`Download`). After the engine succeeds, `download_media` resolves the produced file inside the task's own directory. It takes the custom output filename when one was requested and is present. Otherwise it takes the most recently modified file with the requested extension. If nothing matches, the task ends in an error. For an audio task it then runs the tag rewrite on that file. The status body serves the file as `/files/<task id>/<name>`.
- **Client side** (`Retrieval`). These are the end-to-end helpers. One classifies a polled status: completed, failed with its detail, or keep polling. `find_downloaded_mp3` takes the file named like the last `/` segment of the task's `file`, else the most recently modified MP3, else fails. The tag checks require a TIT2, and require UTF-8 on TIT2 and on any TPE1.
- **Test fixture** (`MpegHeader`). `create_minimal_mp3` writes ten MPEG-1 Layer III frames of 417 bytes, each with the header `FF FB 90 00`. Header fields follow ISO/IEC 11172-3, clause 2.4.1.3 for syntax and clause 2.4.2.3 for semantics. The model packs and unpacks the header, computes the frame length, and parses the ten frames back.
- **Scenarios** (`Scenarios`). These lemmas compose the pieces above into the tests' workflows and test vectors.

The implementation module (`src/yt_handler.py`) is not part of this model. Its behaviour is reconstructed from what the unit, integration and end-to-end tests assert. The tests only list directories holding one file, so they do not settle how `download_media` picks among several. The rule modelled in `Download.Resolve` is this. A custom output filename that is present wins. Otherwise the most recently modified file with the requested extension is taken. When there is no such file, the task fails.

## Model

| member | source | states |
|---|---|---|
| Text.Strip | tests/unit/test_id3_tags.py:76-89 | the stripped text starts and ends with a non-whitespace character and is no longer than its input |
| Text.StripRemovesPadding | tests/unit/test_id3_tags.py:76-89 | `strip()` keeps a contiguous slice of the input and removes only whitespace, only from the two ends |
| Text.StripPadded | tests/unit/test_id3_tags.py:76-89 | any whitespace padding around a trimmed core strips to exactly that core |
| Text.StripIdempotent | tests/unit/test_id3_tags.py:76-89 | stripping twice is the same as stripping once |
| Text.FindSeparator | tests/unit/test_id3_tags.py:61-74 | the position found is the first `" - "`; none is found exactly when the text holds no separator |
| Text.IsSpace | tests/unit/test_id3_tags.py:76-89 | whitespace for `strip()` is tab through carriage return, the four ASCII separators 1C to 1F, and the space |
| Text.LastSegment | tests/e2e/test_download_and_validate_id3.py:65 | `split('/')[-1]` holds no slash |
| Text.LastSegmentIsSuffix | tests/e2e/test_download_and_validate_id3.py:65 | `split('/')[-1]` is a slash-free suffix of the path, preceded by a slash unless it is the whole path |
| Text.LastSegmentOfJoin | tests/e2e/test_download_and_validate_id3.py:63-65 | the last segment of `dir + "/" + name` is `name` when `name` holds no slash |
| TitleSplit.SplitTitle | tests/unit/test_id3_tags.py:47-59 | both results are trimmed; an artist comes with a non-empty title; with no separator there is no artist and the title is the whole stripped input |
| TitleSplit.SplitAtFirstSeparator | tests/unit/test_id3_tags.py:61-74 | the split is decided by the first separator alone: the stripped text before it is the artist and the stripped rest, later separators included, is the title |
| TitleSplit.SplitJoined | tests/unit/test_id3_tags.py:61-74 | `head + " - " + tail` splits into stripped `head` and stripped `tail` when `head` has no separator of its own |
| TitleSplit.JoinThenSplit | tests/unit/test_id3_tags.py:32-45 | round trip: a trimmed artist with no separator of its own, even followed by a space, joined to a trimmed title with `" - "` splits back into the same pair |
| TitleSplit.PaddedJoinThenSplit | tests/unit/test_id3_tags.py:76-89 | whitespace padding around either half does not reach the frames, when the padded artist holds no separator of its own |
| TitleSplit.BeatlesVector | tests/unit/test_id3_tags.py:32-45 | "The Beatles - Hey Jude" gives artist "The Beatles" and title "Hey Jude" |
| TitleSplit.NoSeparatorVector | tests/unit/test_id3_tags.py:47-59 | "Just A Title" gives title "Just A Title" and no artist |
| TitleSplit.FirstSeparatorVector | tests/unit/test_id3_tags.py:61-74 | "Artist Name - Track Title - Remix" gives "Artist Name" and "Track Title - Remix" |
| TitleSplit.WhitespaceVector | tests/unit/test_id3_tags.py:76-89 | "  Artist  -  Track  " gives "Artist" and "Track" |
| TitleSplit.JapaneseVector | tests/unit/test_id3_tags.py:141-157 | the Japanese artist and track pass through unchanged |
| TitleSplit.EmptyVector | tests/unit/test_id3_tags.py:182-193 | the empty title gives an empty title and no artist |
| TitleSplit.SpecialCharactersVector | tests/unit/test_id3_tags.py:195-208 | emoji, parentheses and brackets pass through unchanged |
| TitleSplit.LongTitleVector | tests/unit/test_id3_tags.py:210-225 | an artist and a title of any length survive the split untruncated |
| TitleSplit.DashedArtistVector | tests/unit/test_id3_tags.py:61-74 | only the spaced `" - "` splits, so a bare dash inside the artist's name stays in it: "Jay-Z - Song" gives "Jay-Z" and "Song" |
| TitleSplit.TwoHundredCharacterVector | tests/unit/test_id3_tags.py:210-225 | 200 `A`s and 200 `T`s around the separator come back whole |
| Id3.GetAll | tests/unit/test_id3_tags.py:177-178 | `getall(id)` holds exactly the frames of the tag with that id |
| Id3.Get | tests/unit/test_id3_tags.py:42-45 | `get(id)` finds a frame exactly when the tag has one with that id, and it is such a frame |
| Id3.GetAllRemovePartition | tests/unit/test_id3_tags.py:159-180 | `getall(id)` and `delall(id)` share out the tag's frames: together they hold each frame exactly as often as the tag does |
| Id3.Remove | tests/unit/test_id3_tags.py:159-180 | deleting an id keeps exactly the frames with other ids and leaves none with that id |
| Id3.RemoveKeepsOthers | tests/unit/test_id3_tags.py:159-180 | deleting one id leaves the frames of every other id in place and in order |
| Id3.Rewrite | tests/unit/test_id3_tags.py:159-180 | afterwards there is exactly one UTF-8 TIT2 with the new title, one UTF-8 TPE1 with the new artist or none, and all other frames are unchanged |
| Id3.RewriteTwice | tests/unit/test_id3_tags.py:159-180 | last write wins: a second rewrite leaves what it alone would have left over the original tag |
| Id3.RewriteIdempotent | tests/unit/test_id3_tags.py:159-180 | rewriting with the same pair again changes nothing |
| TagUpdate.IsMp3Path | tests/unit/test_id3_tags.py:103-114 | a path is taken for an MP3 file when it ends in ".mp3" |
| TagUpdate.Mp3PathByName | tests/unit/test_id3_tags.py:103-114 | checking the whole path for ".mp3" is the same as checking the file's name |
| TagUpdate.LogLine | tests/unit/test_id3_tags.py:91-114 | every skipped outcome, and only a skipped one, logs a line |
| TagUpdate.UpdateTags | tests/unit/test_id3_tags.py:91-114 | each outcome holds exactly under its condition (missing, not `.mp3`, unreadable, else written); only a write changes the disk, and only at that path; a written file carries the split title and keeps its other frames |
| TagUpdate.UpdateTwice | tests/unit/test_id3_tags.py:159-180 | updating a file twice equals updating it once with the second title |
| TagUpdate.HeaderCreated | tests/unit/test_id3_tags.py:116-139 | a file with no ID3 header ends with a header holding just the new frames |
| FileSelect.Name | tests/e2e/test_download_and_validate_id3.py:72 | `Path.name` is the last segment of the path and holds no slash |
| FileSelect.WithSuffix | tests/e2e/test_download_and_validate_id3.py:68 | the filter keeps exactly the entries whose name ends with the suffix |
| FileSelect.FindByName | tests/e2e/test_download_and_validate_id3.py:70-73 | the index found is the first entry with the name; none exactly when no entry has it |
| FileSelect.Newest | tests/e2e/test_download_and_validate_id3.py:76-77 | the index found is the first entry of greatest modification time |
| FileSelect.Select | tests/e2e/test_download_and_validate_id3.py:70-79 | some entry is chosen exactly when there are entries, and it is one of them; it is the first one with the wanted name when there is one, otherwise the newest |
| FileSelect.SelectionUnique | tests/e2e/test_download_and_validate_id3.py:70-77 | the first named entry and the newest entry are each unique |
| Download.Resolve | tests/integration/test_download_with_id3.py:201-212 | a custom filename present in the directory is chosen, as its first entry; otherwise a file is found exactly when some entry has the requested extension, and it is such an entry with the greatest modification time |
| Download.Finish | tests/integration/test_download_with_id3.py:118-159 | the record is terminal; completed exactly when the file resolves, and then the recorded file is the resolved entry's name; else the missing-file error with the disk untouched; the rewrite runs exactly for a completed audio task, on that file in the task directory; a video task never touches the disk |
| Download.Report | tests/e2e/test_download_and_validate_id3.py:63 | the status body reports the record's status, error and file, and the served path's last segment is the file name |
| Retrieval.Classify | tests/e2e/test_download_and_validate_id3.py:37-50 | done exactly for a 200 reply with status "completed", which is returned; failed exactly for "error", with "Task failed: " and the detail, or `None`; anything else keeps polling |
| Retrieval.LookupMessage | tests/e2e/test_download_and_validate_id3.py:57-79 | the message raised for a missing MP3 ends with the expected file name |
| Retrieval.LookupMessageDistinct | tests/e2e/test_download_and_validate_id3.py:57-79 | the raised messages tell the two errors apart, down to the expected name |
| Retrieval.Mp3Files | tests/e2e/test_download_and_validate_id3.py:68 | the candidates are exactly the listed files whose name ends in ".mp3" |
| Retrieval.ScanForName | tests/e2e/test_download_and_validate_id3.py:71-73 | the loop returns the first candidate with the wanted name, or reports that there is none |
| Retrieval.ScanForNewest | tests/e2e/test_download_and_validate_id3.py:76-77 | the loop returns the first candidate of greatest modification time |
| Retrieval.FindDownloadedMp3 | tests/e2e/test_download_and_validate_id3.py:57-79 | no file value, or an empty one, fails with "no file path"; no candidate fails with the expected name; otherwise the result is the selection by exact name, else newest |
| Retrieval.TagsValid | tests/e2e/test_download_and_validate_id3.py:133-156 | the client's tag checks: a tag exists, it has a TIT2, and the TIT2 and any TPE1 are UTF-8 |
| Retrieval.RewrittenTagsValid | tests/e2e/test_download_and_validate_id3.py:133-156 | a rewritten tag passes the checks: TIT2 present with the split title, TIT2 and any TPE1 UTF-8, TPE1 present exactly when the split found an artist |
| Scenarios.FinishedTaskStopsPolling | tests/e2e/test_download_and_validate_id3.py:38-45 | whatever the post-download step ends with, the next poll stops: done when the file resolved, failed with the missing-file cause otherwise |
| Scenarios.UnfinishedTaskKeepsPolling | tests/e2e/test_download_and_validate_id3.py:47-50 | a waiting or processing task keeps the client polling |
| Scenarios.ServedNameIsTaggedName | tests/e2e/test_download_and_validate_id3.py:63-73 | the name the client looks up is the name of the file the step resolved and tagged |
| Scenarios.CompletedAudioHasValidTags | tests/e2e/test_download_and_validate_id3.py:133-156 | a completed audio task on a readable MP3 is written and passes the client's tag checks |
| Scenarios.AudioDownloadTagsFile | tests/integration/test_download_with_id3.py:63-113 | an audio task whose directory lists one `.mp3` file completes with that file tagged from `artist - track` |
| Scenarios.AudioVector | tests/integration/test_download_with_id3.py:88-113 | "audio.mp3" with "Test Artist - Test Track" completes with TPE1 "Test Artist" and TIT2 "Test Track" |
| Scenarios.CustomFilenameVector | tests/integration/test_download_with_id3.py:164-219 | the custom "my_custom_song.mp3" is the file completed and tagged with "Custom Artist" and "Custom Track" |
| Scenarios.VideoVector | tests/integration/test_download_with_id3.py:118-159 | a video task runs no rewrite and leaves the disk as it was; with ".mp4" as its extension it completes with "video.mp4" |
| Scenarios.HeaderlessFixtureVector | tests/unit/test_id3_tags.py:116-139 | the fixture with its ID3 header deleted gets a new tag with TPE1 "Artist" and TIT2 "Track" |
| Scenarios.ArtistTrackVector | tests/unit/test_id3_tags.py:131-139 | "Artist - Track" splits into "Artist" and "Track" |
| Scenarios.ReplacesOldFramesVector | tests/unit/test_id3_tags.py:159-180 | over "Old Artist" and "Old Track" there is exactly one TPE1 "New Artist" and one TIT2 "New Track" |
| Scenarios.EmptyTitleVector | tests/unit/test_id3_tags.py:182-193 | the empty title leaves an empty TIT2 and no TPE1 |
| Scenarios.SkipVectors | tests/unit/test_id3_tags.py:91-114 | "does_not_exist.mp3" and "test.txt" are skipped with their log lines and the disk unchanged |
| MpegHeader.Pack | tests/fixtures/mp3_generator.py:16-36 | a packed header is four bytes that start with the 11-bit frame sync |
| MpegHeader.Unpack | tests/fixtures/mp3_generator.py:16-36 | a header is read exactly when four bytes with the frame sync are present, and every field fits its width |
| MpegHeader.UnpackPack | tests/fixtures/mp3_generator.py:16-36 | reading back a packed header gives the same fields |
| MpegHeader.PackUnpack | tests/fixtures/mp3_generator.py:16-36 | packing a header read from bytes gives those four bytes back |
| MpegHeader.FirstTwoBytes | tests/fixtures/mp3_generator.py:16-20 | sync, version 11, layer 01 and protection 1 pack to FF FB |
| MpegHeader.ThirdByte | tests/fixtures/mp3_generator.py:22-26 | bit rate index 1001, sampling frequency 00, padding 0 and private 0 pack to 90 |
| MpegHeader.FourthByte | tests/fixtures/mp3_generator.py:28-33 | stereo, mode extension 00, copyright 0, original 0 and emphasis 00 pack to 00 |
| MpegHeader.BitrateKbps | tests/fixtures/mp3_generator.py:22 | a Layer III bit rate exists exactly for indices 1 to 14 and lies between 32 and 320 kbit/s |
| MpegHeader.SampleRateHz | tests/fixtures/mp3_generator.py:23 | a sampling frequency exists exactly for indices 0 to 2 and is 32, 44.1 or 48 kHz |
| MpegHeader.FrameLength | tests/fixtures/mp3_generator.py:38-40 | a frame length exists exactly for MPEG-1 Layer III with a fixed bit rate and a valid frequency; without the padding byte it is 144 times the bit rate over the frequency, rounded down, and it is at least 96 bytes |
| MpegHeader.FixtureFrameLength | tests/fixtures/mp3_generator.py:38-42 | the fixture header is 128 kbit/s at 44.1 kHz, its frame is 417 bytes, and 417 = 4 header bytes + 413 |
| MpegHeader.FixtureFrame | tests/fixtures/mp3_generator.py:36-42 | one fixture frame is 417 bytes starting with the packed fixture header |
| MpegHeader.ParseFrames | tests/fixtures/mp3_generator.py:44-47 | a parse of non-empty bytes starts with the header read from the front |
| Seqs.Repeat | tests/fixtures/mp3_generator.py:40 | Python's `s * n` has `n` times the length of `s` and holds nothing `s` does not |
| Seqs.RepeatIndex | tests/fixtures/mp3_generator.py:40 | position `i` of `s * n` holds the element of `s` at position `i % |s|` |
| MpegHeader.ParseRepeated | tests/fixtures/mp3_generator.py:42-47 | any frame whose header gives its own length, written back to back any number of times, parses as that many copies of its header |
| MpegHeader.ParseRepeatedFixture | tests/fixtures/mp3_generator.py:44-47 | any number of fixture frames back to back parse as that many fixture headers |
| MpegHeader.CreateMinimalMp3 | tests/fixtures/mp3_generator.py:44-58 | the path is returned; the audio is 4170 bytes parsing as ten fixture headers; an empty tag is added when the file can be read, and a failure to add it is swallowed |

## Left out

- `src/yt_handler.py`, `src/models.py`, `storage` and `memory_manager` are not part of this model. The tag rewrite and the dispatch are reconstructed from the tests. The memory quota, the task ledger and the concurrency of workers have no visible code to follow.
- The download engine (yt-dlp) is a parameter: its extracted title and the directory listing it leaves are inputs of `Download.Finish`. An engine failure never reaches this step.
- The mutagen library is replaced by an abstract file: whether it can read and write the file, and its tag as a frame sequence. The ID3 byte format itself is not modelled.
- HTTP requests, `time.sleep`, the polling timeout and request exceptions are left out. `Retrieval.Classify` models one polled reply.
- `run_local.py` only sets environment variables and starts the server. `tests/conftest.py` holds environment and temp-directory fixtures, and `create_mp3_file`, which writes the bytes `FF FB` followed by 1000 zero bytes and optionally an empty tag. Its third header byte `00` is the free-format bit rate, which `MpegHeader.FrameLength` gives no size. No core test uses it. None of these is modelled.
- Text.IsSpace: only the ASCII characters `str.strip()` removes. Non-ASCII whitespace such as U+0085, U+00A0 and the Unicode space separators is not modelled.
- TitleSplit.SplitTitle: a separator with a blank side (" - Track", "Artist - ") gives no artist and the whole stripped title. This is a modelling choice: an artist is written only when both halves are non-empty after stripping, and no test exercises the case.
- TagUpdate.IsMp3Path: the extension check is a case-sensitive `.mp3` suffix. How the implementation compares extensions is not visible.
- TagUpdate.UpdateTags: a readable file is always written. A failure while saving is folded into the file being unreadable (`TagError`).
- Scenarios.EmptyTitleVector: the model writes an empty TIT2. The test also accepts no TIT2 at all.
- Download.Resolve: the choice among several files is a modelling choice. A custom name that is absent falls back to the newest file with the requested extension, the same fallback the client's `find_downloaded_mp3` makes. A file with another extension is never chosen.
- Download.Task: the expected extension is a field of the task. An audio task with `output_format` "mp3" expects ".mp3". The video task in the tests gives no output format, and `Scenarios.VideoVector` assumes ".mp4". The tests assert only that no tag rewrite runs for it.
- Download.StatusName: the strings "waiting" and "processing" are assumed. Only "completed" and "error" appear in the tests.
- Download.Finish: the missing-file cause is recorded as "Produced file not found". The exact text is not visible.
- Download.Report: the served path `/files/<task id>/<name>` follows the end-to-end test's comment. The other form it mentions, `/files/<name>`, is not modelled.
- FileSelect.Entry: a modification time is an integer where `st_mtime` is a float. Only comparisons use it. A path ending in "/" has the empty name here, where `Path.name` would give the segment before the slash; glob results and directory listings never end in "/".
- Retrieval.Mp3Files: the recursive glob below the download directory is given as a flat listing of paths with modification times.
- MpegHeader.FrameLength: only MPEG-1 Layer III frames have a length here. Layers I and II, MPEG-2 and the free format are not modelled.
- MpegHeader.Pack: its own contract states only the sync bytes. The field layout is stated by `UnpackPack`, `PackUnpack` and the three byte lemmas.

=== FILE: download.dfy ===
/** What `download_media` does once the download engine has returned: find the produced
    file in the task's own directory, rewrite its tags when the task is an audio task, and
    record the task's terminal status. */
module Download {
  import opened Wrappers
  import opened Text
  import opened FileSelect
  import opened TagUpdate

  datatype TaskType = GetAudio | GetVideo

  /** The fields of a task record the post-download step reads: `extension` is the file
      extension of the requested output format, such as ".mp3". */
  datatype Task = Task(id: string, kind: TaskType, outputFilename: Option<string>, extension: string)

  datatype Status = Waiting | Processing | Completed | Error

  /** A task as the status endpoint stores it: a file once completed, a cause once failed. */
  datatype TaskRecord = TaskRecord(status: Status, file: Option<string>, error: Option<string>)

  /** A terminal record carries exactly one of a file and an error. */
  predicate Settled(r: TaskRecord) {
    && (r.status == Completed || r.status == Error)
    && (r.file.Some? <==> r.status == Completed)
    && (r.error.Some? <==> r.status == Error)
  }

  /** The cause recorded when the engine reported success but nothing is in the directory. */
  const MissingFileError: string := "Produced file not found"

  /** The path of file `name` inside directory `dir`. */
  function Join(dir: string, name: string): string {
    dir + "/" + name
  }

  /** The produced file in the task's directory: the entry named like the custom output
      file when one was asked for and is there; otherwise the most recently modified entry
      with the requested extension; otherwise nothing. */
  function Resolve(task: Task, listing: seq<Entry>): (r: Option<Entry>)
    ensures task.outputFilename.Some? && HasName(listing, task.outputFilename.value) ==>
      exists k :: FirstNamedAt(listing, task.outputFilename.value, k) && r == Some(listing[k])
    ensures task.outputFilename.None? || !HasName(listing, task.outputFilename.value) ==>
      && (r.Some? <==> exists e :: e in listing && EndsWith(Name(e), task.extension))
      && (r.Some? ==> r.value in listing && EndsWith(Name(r.value), task.extension))
      && (r.Some? ==> forall e :: e in listing && EndsWith(Name(e), task.extension) ==> e.mtime <= r.value.mtime)
  {
    var named := if task.outputFilename.Some? then FindByName(listing, task.outputFilename.value) else None;
    if named.Some? then Some(listing[named.value])
    else
      var candidates := WithSuffix(listing, task.extension);
      if candidates == [] then None
      else
        var k := Newest(candidates);
        assert candidates[k] in candidates;
        assert forall e :: e in candidates ==> e.mtime <= candidates[k].mtime by {
          forall e | e in candidates ensures e.mtime <= candidates[k].mtime {
            var j :| 0 <= j < |candidates| && candidates[j] == e;
          }
        }
        Some(candidates[k])
  }

  /** The record the step leaves, the disk afterwards, and how the tag rewrite ended, when
      it ran at all. */
  datatype Finished = Finished(record: TaskRecord, disk: Disk, tagging: Option<Outcome>)

  /** `taskDir` is the task's own directory and `listing` its contents (`os.listdir` with
      modification times); `title` is the engine's extracted title. A download whose file
      cannot be resolved ends in an error; otherwise the task completes with that file, and
      for an audio task the tag rewrite runs on it. */
  function Finish(task: Task, taskDir: string, listing: seq<Entry>, title: string, disk: Disk): (f: Finished)
    ensures Settled(f.record)
    ensures f.record.status == Completed <==> Resolve(task, listing).Some?
    ensures f.record.status == Error ==> f.record.error == Some(MissingFileError) && f.disk == disk
    ensures f.tagging.Some? <==> task.kind == GetAudio && f.record.status == Completed
    ensures task.kind == GetVideo ==> f.disk == disk
    ensures f.record.status == Completed ==> f.record.file == Some(Name(Resolve(task, listing).value))
    ensures f.record.status == Completed ==> exists e :: e in listing && f.record.file == Some(Name(e))
    ensures task.outputFilename.Some? && HasName(listing, task.outputFilename.value) ==>
      f.record.file == task.outputFilename
    ensures f.record.status == Completed && f.record.file != task.outputFilename ==>
      EndsWith(f.record.file.value, task.extension)
    ensures f.tagging.Some? ==>
      var u := UpdateTags(disk, Join(taskDir, f.record.file.value), title);
      f.tagging == Some(u.outcome) && f.disk == u.disk
  {
    match Resolve(task, listing)
    case None => Finished(TaskRecord(Error, None, Some(MissingFileError)), disk, None)
    case Some(e) =>
      var record := TaskRecord(Completed, Some(Name(e)), None);
      if task.kind == GetAudio then
        var u := UpdateTags(disk, Join(taskDir, Name(e)), title);
        Finished(record, u.disk, Some(u.outcome))
      else
        Finished(record, disk, None)
  }

  /** The JSON body of the status endpoint. */
  datatype StatusJson = StatusJson(status: Option<string>, file: Option<string>, error: Option<string>)

  function StatusName(s: Status): string {
    match s
    case Waiting => "waiting"
    case Processing => "processing"
    case Completed => "completed"
    case Error => "error"
  }

  /** The status body for a task: the file is served as `/files/<task id>/<name>`. */
  function Report(task: Task, r: TaskRecord): (j: StatusJson)
    ensures j.status == Some(StatusName(r.status))
    ensures j.file.Some? <==> r.file.Some?
    ensures r.file.Some? && '/' !in r.file.value ==> LastSegment(j.file.value) == r.file.value
    ensures j.error == r.error
  {
    match r.file
    case None => StatusJson(Some(StatusName(r.status)), None, r.error)
    case Some(name) =>
      var served := Join("/files/" + task.id, name);
      assert '/' !in name ==> LastSegment(served) == name by {
        if '/' !in name {
          LastSegmentOfJoin("/files/" + task.id, name);
        }
      }
      StatusJson(Some(StatusName(r.status)), Some(served), r.error)
  }
}

=== FILE: file_select.dfy ===
/** Picking the produced file among the files found on disk: a file with the wanted name
    if there is one, otherwise the most recently modified file. */
module FileSelect {
  import opened Wrappers
  import opened Text

  /** A file found on disk: its path and its modification time. */
  datatype Entry = Entry(path: string, mtime: int)

  /** `Path.name`: the last segment of the path. */
  function Name(e: Entry): (n: string)
    ensures '/' !in n
  {
    LastSegment(e.path)
  }

  /** The entries whose name ends with `suffix`, in order. */
  function WithSuffix(entries: seq<Entry>, suffix: string): (r: seq<Entry>)
    ensures forall e :: e in r <==> e in entries && EndsWith(Name(e), suffix)
    ensures |r| <= |entries|
  {
    if entries == [] then []
    else (if EndsWith(Name(entries[0]), suffix) then [entries[0]] else []) + WithSuffix(entries[1..], suffix)
  }

  predicate HasName(entries: seq<Entry>, name: string) {
    exists j | 0 <= j < |entries| :: Name(entries[j]) == name
  }

  /** `k` is where the first entry called `name` sits. */
  predicate FirstNamedAt(entries: seq<Entry>, name: string, k: int) {
    0 <= k < |entries| && Name(entries[k]) == name && forall j :: 0 <= j < k ==> Name(entries[j]) != name
  }

  /** `k` is what `max(entries, key=mtime)` returns: the first entry of greatest mtime. */
  predicate NewestAt(entries: seq<Entry>, k: int) {
    && 0 <= k < |entries|
    && (forall j :: 0 <= j < |entries| ==> entries[j].mtime <= entries[k].mtime)
    && (forall j :: 0 <= j < k ==> entries[j].mtime < entries[k].mtime)
  }

  function FindByNameFrom(entries: seq<Entry>, name: string, from: nat): (r: Option<nat>)
    ensures r.Some? ==> from <= r.value < |entries| && Name(entries[r.value]) == name
    ensures forall j :: from <= j < |entries| && (r.None? || j < r.value) ==> Name(entries[j]) != name
    decreases |entries| - from
  {
    if from >= |entries| then None
    else if Name(entries[from]) == name then Some(from)
    else FindByNameFrom(entries, name, from + 1)
  }

  /** The loop `for f in entries: if f.name == name: return f`, as an index. */
  function FindByName(entries: seq<Entry>, name: string): (r: Option<nat>)
    ensures r.Some? ==> FirstNamedAt(entries, name, r.value)
    ensures r.None? <==> !HasName(entries, name)
  {
    FindByNameFrom(entries, name, 0)
  }

  function Newest(entries: seq<Entry>): (k: nat)
    requires entries != []
    ensures NewestAt(entries, k)
  {
    if |entries| == 1 then 0
    else
      var k := Newest(entries[..|entries| - 1]);
      if entries[|entries| - 1].mtime > entries[k].mtime then |entries| - 1 else k
  }

  /** Exact name first, else the newest file, else nothing. */
  function Select(entries: seq<Entry>, wanted: Option<string>): (r: Option<Entry>)
    ensures r.Some? <==> entries != []
    ensures r.Some? ==> r.value in entries
    ensures wanted.Some? && HasName(entries, wanted.value) ==>
      exists k :: FirstNamedAt(entries, wanted.value, k) && r == Some(entries[k])
    ensures entries != [] && (wanted.None? || !HasName(entries, wanted.value)) ==>
      exists k :: NewestAt(entries, k) && r == Some(entries[k])
  {
    if entries == [] then None
    else if wanted.Some? && FindByName(entries, wanted.value).Some? then
      Some(entries[FindByName(entries, wanted.value).value])
    else
      Some(entries[Newest(entries)])
  }

  /** The first entry with a name, and the newest entry, are each unique. */
  lemma SelectionUnique(entries: seq<Entry>, name: string, i: int, j: int)
    ensures FirstNamedAt(entries, name, i) && FirstNamedAt(entries, name, j) ==> i == j
    ensures NewestAt(entries, i) && NewestAt(entries, j) ==> i == j
  {
  }
}

=== FILE: id3.dfy ===
/** ID3v2 text frames as an abstract sequence, and the rewrite that replaces the artist
    (TPE1) and title (TIT2) frames. */
module Id3 {
  import opened Wrappers
  import opened TitleSplit

  /** Lead performer frame. */
  const ArtistId: string := "TPE1"
  /** Title frame. */
  const TitleId: string := "TIT2"
  /** ID3v2.4 text encoding byte 3 is UTF-8. */
  const Utf8: nat := 3

  datatype Frame = Frame(id: string, encoding: nat, text: string)

  /** The frames of one ID3 tag, in order. */
  type Tag = seq<Frame>

  /** `tags.getall(id)`: every frame with that id, in order. */
  function GetAll(tag: Tag, id: string): (r: Tag)
    ensures forall f :: f in r <==> f in tag && f.id == id
    ensures |r| <= |tag|
  {
    if tag == [] then []
    else (if tag[0].id == id then [tag[0]] else []) + GetAll(tag[1..], id)
  }

  /** `tags.get(id)`: the first frame with that id, if any. */
  function Get(tag: Tag, id: string): (r: Option<Frame>)
    ensures r.Some? <==> exists f :: f in tag && f.id == id
    ensures r.Some? ==> r.value in tag && r.value.id == id
  {
    var all := GetAll(tag, id);
    if all == [] then
      assert forall f :: f in tag && f.id == id ==> f in all;
      None
    else
      assert all[0] in all;
      Some(all[0])
  }

  /** `tags.delall(id)`: every frame except those with that id, in order. */
  function Remove(tag: Tag, id: string): (r: Tag)
    ensures forall f :: f in r <==> f in tag && f.id != id
    ensures GetAll(r, id) == []
  {
    if tag == [] then []
    else if tag[0].id == id then Remove(tag[1..], id)
    else [tag[0]] + Remove(tag[1..], id)
  }

  /** `getall(id)` and `delall(id)` split a tag between them: every frame lands in exactly
      one of the two, as often as it occurs, so neither drops nor duplicates a frame. */
  lemma {:induction false} GetAllRemovePartition(tag: Tag, id: string)
    ensures multiset(GetAll(tag, id)) + multiset(Remove(tag, id)) == multiset(tag)
    decreases |tag|
  {
    if tag != [] {
      var t := tag[1..];
      GetAllRemovePartition(t, id);
      assert tag == [tag[0]] + t;
      if tag[0].id == id {
        assert GetAll(tag, id) == [tag[0]] + GetAll(t, id);
        assert Remove(tag, id) == Remove(t, id);
      } else {
        assert GetAll(tag, id) == GetAll(t, id);
        assert Remove(tag, id) == [tag[0]] + Remove(t, id);
      }
    }
  }

  /** `delall(id)` leaves the frames of every other id exactly as they were. */
  lemma {:induction false} RemoveKeepsOthers(tag: Tag, id: string, other: string)
    requires other != id
    ensures GetAll(Remove(tag, id), other) == GetAll(tag, other)
    decreases |tag|
  {
    if tag != [] {
      RemoveKeepsOthers(tag[1..], id, other);
      if tag[0].id != id {
        assert ([tag[0]] + Remove(tag[1..], id))[1..] == Remove(tag[1..], id);
      }
    }
  }

  /** The frames the rewrite adds: TPE1 only when there is an artist, then TIT2, both UTF-8. */
  function NewFrames(p: TagPair): Tag {
    (if p.artist.Some? then [Frame(ArtistId, Utf8, p.artist.value)] else []) + [Frame(TitleId, Utf8, p.title)]
  }

  /** `tag` holds exactly one UTF-8 TIT2 with `p`'s title, and a UTF-8 TPE1 with `p`'s
      artist when it has one and no TPE1 otherwise. */
  predicate Carries(tag: Tag, p: TagPair) {
    && GetAll(tag, TitleId) == [Frame(TitleId, Utf8, p.title)]
    && GetAll(tag, ArtistId) == if p.artist.Some? then [Frame(ArtistId, Utf8, p.artist.value)] else []
  }

  /** Frames other than TPE1 and TIT2 agree between the two tags. */
  ghost predicate SameOtherFrames(a: Tag, b: Tag) {
    forall id :: id != ArtistId && id != TitleId ==> GetAll(a, id) == GetAll(b, id)
  }

  /** Delete every TPE1 and TIT2, then add the new pair. */
  function Rewrite(tag: Tag, p: TagPair): (r: Tag)
    ensures Carries(r, p)
    ensures SameOtherFrames(r, tag)
  {
    var kept := Remove(Remove(tag, ArtistId), TitleId);
    KeptPlusNew(tag, p);
    kept + NewFrames(p)
  }

  /** The kept frames followed by the new pair carry the pair and the other frames. */
  lemma KeptPlusNew(tag: Tag, p: TagPair)
    ensures Carries(Remove(Remove(tag, ArtistId), TitleId) + NewFrames(p), p)
    ensures SameOtherFrames(Remove(Remove(tag, ArtistId), TitleId) + NewFrames(p), tag)
  {
    var kept := Remove(Remove(tag, ArtistId), TitleId);
    var added := NewFrames(p);
    RemoveKeepsOthers(Remove(tag, ArtistId), TitleId, ArtistId);
    GetAllAppend(kept, added, TitleId);
    GetAllAppend(kept, added, ArtistId);
    GetAllNewFrames(p, TitleId);
    GetAllNewFrames(p, ArtistId);
    forall id | id != ArtistId && id != TitleId
      ensures GetAll(kept + added, id) == GetAll(tag, id)
    {
      RemoveKeepsOthers(tag, ArtistId, id);
      RemoveKeepsOthers(Remove(tag, ArtistId), TitleId, id);
      GetAllAppend(kept, added, id);
      GetAllNewFrames(p, id);
    }
  }

  lemma GetAllNewFrames(p: TagPair, id: string)
    ensures GetAll(NewFrames(p), id) ==
      (if p.artist.Some? && id == ArtistId then [Frame(ArtistId, Utf8, p.artist.value)] else [])
      + (if id == TitleId then [Frame(TitleId, Utf8, p.title)] else [])
  {
    var t := [Frame(TitleId, Utf8, p.title)];
    if p.artist.Some? {
      var a := [Frame(ArtistId, Utf8, p.artist.value)];
      GetAllAppend(a, t, id);
      assert GetAll(a, id) == (if id == ArtistId then a else []) + GetAll([], id);
    }
    assert GetAll(t, id) == (if id == TitleId then t else []) + GetAll([], id);
  }

  lemma {:induction false} GetAllAppend(a: Tag, b: Tag, id: string)
    ensures GetAll(a + b, id) == GetAll(a, id) + GetAll(b, id)
    decreases |a|
  {
    if a == [] {
      assert a + b == b;
    } else {
      assert (a + b)[1..] == a[1..] + b;
      GetAllAppend(a[1..], b, id);
    }
  }

  /** `delall` distributes over concatenation. */
  lemma {:induction false} RemoveAppend(a: Tag, b: Tag, id: string)
    ensures Remove(a + b, id) == Remove(a, id) + Remove(b, id)
    decreases |a|
  {
    if a == [] {
      assert a + b == b;
    } else {
      assert (a + b)[1..] == a[1..] + b;
      RemoveAppend(a[1..], b, id);
    }
  }

  /** Deleting twice is deleting once, in either order. */
  lemma {:induction false} RemoveTwice(tag: Tag, id: string, other: string)
    ensures Remove(Remove(tag, id), other) == Remove(Remove(tag, other), id)
    ensures Remove(Remove(tag, id), id) == Remove(tag, id)
    decreases |tag|
  {
    if tag != [] {
      RemoveTwice(tag[1..], id, other);
      var rest := tag[1..];
      if tag[0].id != id {
        assert ([tag[0]] + Remove(rest, id))[1..] == Remove(rest, id);
      }
      if tag[0].id != other {
        assert ([tag[0]] + Remove(rest, other))[1..] == Remove(rest, other);
      }
    }
  }

  lemma RemoveNewFrames(p: TagPair)
    ensures Remove(Remove(NewFrames(p), ArtistId), TitleId) == []
  {
    var t := [Frame(TitleId, Utf8, p.title)];
    if p.artist.Some? {
      var a := [Frame(ArtistId, Utf8, p.artist.value)];
      RemoveAppend(a, t, ArtistId);
      assert Remove(a, ArtistId) == [];
    }
    assert Remove(t, ArtistId) == t;
  }

  /** Last write wins: a second rewrite leaves exactly what it would have written over the
      original tag, so repeated runs never pile up frames. */
  lemma RewriteTwice(tag: Tag, first: TagPair, second: TagPair)
    ensures Rewrite(Rewrite(tag, first), second) == Rewrite(tag, second)
  {
    var kept := Remove(Remove(tag, ArtistId), TitleId);
    RemoveAppend(kept, NewFrames(first), ArtistId);
    RemoveAppend(Remove(kept, ArtistId), Remove(NewFrames(first), ArtistId), TitleId);
    RemoveNewFrames(first);
    RemoveTwice(Remove(tag, ArtistId), TitleId, ArtistId);
    RemoveTwice(tag, ArtistId, TitleId);
    RemoveTwice(Remove(tag, TitleId), ArtistId, TitleId);
    assert Remove(Remove(kept, ArtistId), TitleId) + [] == kept;
  }

  /** Rewriting with the same pair again changes nothing. */
  lemma RewriteIdempotent(tag: Tag, p: TagPair)
    ensures Rewrite(Rewrite(tag, p), p) == Rewrite(tag, p)
  {
    RewriteTwice(tag, p, p);
  }
}

=== FILE: mpeg_header.dfy ===
/** The 4-byte MPEG-1 audio frame header (ISO/IEC 11172-3, clause 2.4.1.3 syntax and
    clause 2.4.2.3 semantics) and the minimal Layer III file the test fixture writes: ten
    silent 128 kbit/s, 44.1 kHz frames. */
module MpegHeader {
  import opened Wrappers
  import opened Seqs
  import opened TagUpdate

  type Byte = bv8

  /** The header fields after the 11-bit frame sync, each held in the low bits of a byte.
      `version` 11 is the last sync bit of the standard's 12-bit syncword followed by its
      ID bit 1 (MPEG-1). */
  datatype FrameHeader = FrameHeader(
    version: Byte,          // 2 bits
    layer: Byte,            // 2 bits: 11 Layer I, 10 Layer II, 01 Layer III
    protection: Byte,       // 1 bit: 1 means no CRC follows
    bitrateIndex: Byte,     // 4 bits
    sampleRateIndex: Byte,  // 2 bits
    padding: Byte,          // 1 bit
    private: Byte,          // 1 bit
    mode: Byte,             // 2 bits: 00 stereo
    modeExtension: Byte,    // 2 bits
    copyright: Byte,        // 1 bit
    original: Byte,         // 1 bit
    emphasis: Byte          // 2 bits: 00 none
  )

  /** Every field fits its width. */
  predicate WellFormed(h: FrameHeader) {
    && h.version < 4 && h.layer < 4 && h.protection < 2
    && h.bitrateIndex < 16 && h.sampleRateIndex < 4 && h.padding < 2 && h.private < 2
    && h.mode < 4 && h.modeExtension < 4 && h.copyright < 2 && h.original < 2 && h.emphasis < 4
  }

  /** The header as four bytes, most significant bit first. */
  function Pack(h: FrameHeader): (b: seq<Byte>)
    requires WellFormed(h)
    ensures |b| == 4 && b[0] == 0xFF && b[1] & 0xE0 == 0xE0
  {
    [ 0xFF,
      0xE0 | (h.version << 3) | (h.layer << 1) | h.protection,
      (h.bitrateIndex << 4) | (h.sampleRateIndex << 2) | (h.padding << 1) | h.private,
      (h.mode << 6) | (h.modeExtension << 4) | (h.copyright << 3) | (h.original << 2) | h.emphasis ]
  }

  /** Read a header from the front of `b`; `None` without the 11-bit frame sync. */
  function Unpack(b: seq<Byte>): (r: Option<FrameHeader>)
    ensures r.Some? ==> WellFormed(r.value)
    ensures r.Some? <==> |b| >= 4 && b[0] == 0xFF && b[1] & 0xE0 == 0xE0
  {
    if |b| < 4 || b[0] != 0xFF || b[1] & 0xE0 != 0xE0 then None
    else Some(FrameHeader(
      (b[1] >> 3) & 3, (b[1] >> 1) & 3, b[1] & 1,
      b[2] >> 4, (b[2] >> 2) & 3, (b[2] >> 1) & 1, b[2] & 1,
      b[3] >> 6, (b[3] >> 4) & 3, (b[3] >> 3) & 1, (b[3] >> 2) & 1, b[3] & 3))
  }

  /** Reading back a packed header gives the same fields. */
  lemma UnpackPack(h: FrameHeader)
    requires WellFormed(h)
    ensures Unpack(Pack(h)) == Some(h)
  {
  }

  /** Packing a header read from bytes gives those four bytes back. */
  lemma PackUnpack(b: seq<Byte>)
    requires Unpack(b).Some?
    ensures Pack(Unpack(b).value) == b[..4]
  {
  }

  /** Layer III bit rates of MPEG-1 in kbit/s, by `bitrate_index` (clause 2.4.2.3);
      index 0 is the free format and 15 is forbidden, neither of which has a fixed size. */
  function BitrateKbps(index: Byte): (r: Option<nat>)
    ensures r.Some? <==> 1 <= index <= 14
    ensures r.Some? ==> 32 <= r.value <= 320
  {
    var table: seq<nat> := [0, 32, 40, 48, 56, 64, 80, 96, 112, 128, 160, 192, 224, 256, 320];
    if 1 <= index <= 14 then Some(table[index as int]) else None
  }

  /** MPEG-1 sampling frequencies in Hz, by `sampling_frequency` (clause 2.4.2.3); 11 is
      reserved. */
  function SampleRateHz(index: Byte): (r: Option<nat>)
    ensures r.Some? <==> index <= 2
    ensures r.Some? ==> r.value in {32000, 44100, 48000}
  {
    if index == 0 then Some(44100)
    else if index == 1 then Some(48000)
    else if index == 2 then Some(32000)
    else None
  }

  /** Division rounded down, characterised by its bounds. */
  function FloorDiv(a: nat, b: nat): (q: nat)
    requires b > 0
    ensures q * b <= a < (q + 1) * b
  {
    a / b
  }

  /** The slowest bit rate at the fastest sampling frequency gives the shortest frame:
      96 bytes before padding. */
  lemma ShortestFrame(q: nat, hz: nat, bits: nat)
    requires 0 < hz <= 48000 && bits >= 144 * 32 * 1000 && bits < (q + 1) * hz
    ensures q >= 144 * 32000 / 48000
  {
  }

  /** Bytes in a MPEG-1 Layer III frame: 144 * bit rate / sampling frequency, rounded
      down, plus one byte when the padding bit is set. Other layers and versions, and the
      free-format and forbidden bit rates, have no size here. */
  function FrameLength(h: FrameHeader): (r: Option<nat>)
    ensures r.Some? <==> h.version == 3 && h.layer == 1 && 1 <= h.bitrateIndex <= 14 && h.sampleRateIndex <= 2
    ensures r.Some? ==> r.value >= 144 * 32000 / 48000
    ensures r.Some? ==>
      var n := r.value - h.padding as nat;
      var hz := SampleRateHz(h.sampleRateIndex).value;
      n * hz <= 144 * BitrateKbps(h.bitrateIndex).value * 1000 < (n + 1) * hz
  {
    if h.version != 3 || h.layer != 1 then None
    else match (BitrateKbps(h.bitrateIndex), SampleRateHz(h.sampleRateIndex))
      case (Some(kbps), Some(hz)) =>
        var q := FloorDiv(144 * kbps * 1000, hz);
        assert q * hz <= 144 * kbps * 1000 < (q + 1) * hz;
        ShortestFrame(q, hz, 144 * kbps * 1000);
        Some(q + h.padding as nat)
      case _ => None
  }

  /** The header the fixture writes: MPEG-1, Layer III, no CRC, 128 kbit/s, 44.1 kHz, no
      padding, stereo, no emphasis. */
  const FixtureHeader := FrameHeader(3, 1, 1, 9, 0, 0, 0, 0, 0, 0, 0, 0)

  /** Sync, version 11, layer 01 and protection 1 make the bytes FF FB. */
  lemma FirstTwoBytes()
    ensures Pack(FixtureHeader)[..2] == [0xFF, 0xFB]
  {
  }

  /** Bit rate index 1001, sampling frequency 00, padding 0 and private 0 make 90. */
  lemma ThirdByte()
    ensures Pack(FixtureHeader)[2] == 0x90
  {
  }

  /** Stereo, mode extension 00, copyright 0, original 0 and emphasis 00 make 00. */
  lemma FourthByte()
    ensures Pack(FixtureHeader)[3] == 0x00
  {
  }

  /** The fixture header decodes to 128 kbit/s at 44.1 kHz, a 417-byte frame: 4 header
      bytes and 413 payload bytes. */
  lemma FixtureFrameLength()
    ensures BitrateKbps(FixtureHeader.bitrateIndex) == Some(128)
    ensures SampleRateHz(FixtureHeader.sampleRateIndex) == Some(44100)
    ensures FrameLength(FixtureHeader) == Some(417)
    ensures 417 == |Pack(FixtureHeader)| + 413
  {
  }

  /** Split `b` into consecutive frames, each starting with a header whose frame length
      says where the next one begins; `None` when that fails anywhere. */
  function ParseFrames(b: seq<Byte>): (r: Option<seq<FrameHeader>>)
    ensures r.Some? && b != [] ==> |r.value| > 0 && Unpack(b) == Some(r.value[0])
    decreases |b|
  {
    if b == [] then Some([])
    else match Unpack(b)
      case None => None
      case Some(h) =>
        match FrameLength(h)
        case None => None
        case Some(n) =>
          if n > |b| then None
          else match ParseFrames(b[n..])
            case None => None
            case Some(rest) => Some([h] + rest)
  }

  /** One fixture frame: the header and 413 zero bytes of silence. */
  function FixtureFrame(): (f: seq<Byte>)
    ensures |f| == 417
    ensures f[..4] == Pack(FixtureHeader)
  {
    Pack(FixtureHeader) + Repeat([0], 413)
  }

  /** A frame whose header gives its own length, repeated `count` times, parses as
      `count` copies of that header. */
  lemma {:induction false} ParseRepeated(f: seq<Byte>, h: FrameHeader, count: nat)
    requires |f| >= 4 && Unpack(f[..4]) == Some(h) && FrameLength(h) == Some(|f|)
    ensures ParseFrames(Repeat(f, count)) == Some(Repeat([h], count))
  {
    if count > 0 {
      var b, rest := Repeat(f, count), Repeat(f, count - 1);
      assert b == f + rest;
      assert b[..4] == f[..4];
      assert b[|f|..] == rest;
      UnpackPrefix(b);
      ParseRepeated(f, h, count - 1);
      ParseStep(b, h, |f|);
    }
  }

  /** A header reads the same from the whole buffer as from its first four bytes. */
  lemma UnpackPrefix(b: seq<Byte>)
    requires |b| >= 4
    ensures Unpack(b) == Unpack(b[..4])
  {
  }

  /** One step of the parse: a header and its frame, followed by frames that parse. */
  lemma ParseStep(b: seq<Byte>, h: FrameHeader, n: nat)
    requires Unpack(b) == Some(h) && FrameLength(h) == Some(n) && n <= |b|
    requires ParseFrames(b[n..]).Some?
    ensures ParseFrames(b) == Some([h] + ParseFrames(b[n..]).value)
  {
  }

  /** `count` fixture frames parse as `count` fixture headers. */
  lemma ParseRepeatedFixture(count: nat)
    ensures ParseFrames(Repeat(FixtureFrame(), count)) == Some(Repeat([FixtureHeader], count))
  {
    var f := FixtureFrame();
    UnpackPack(FixtureHeader);
    FixtureFrameLength();
    ParseRepeated(f, FixtureHeader, count);
  }

  /** What the fixture leaves: the path it was given, the audio bytes, and the file as the
      tag code sees it. */
  datatype Fixture = Fixture(path: string, audio: seq<Byte>, file: AudioFile)

  /** `create_minimal_mp3(path)`: ten fixture frames, then an empty ID3 tag added when
      mutagen can read the file. A failure to add the tag is swallowed and the path is
      returned all the same. */
  function CreateMinimalMp3(path: string, mutagenReads: bool): (r: Fixture)
    ensures r.path == path
    ensures |r.audio| == 4170
    ensures ParseFrames(r.audio) == Some(Repeat([FixtureHeader], 10))
    ensures r.file.parses == mutagenReads
    ensures r.file.tag == if mutagenReads then Some([]) else None
  {
    ParseRepeatedFixture(10);
    Fixture(path, Repeat(FixtureFrame(), 10), AudioFile(mutagenReads, if mutagenReads then Some([]) else None))
  }
}

=== FILE: retrieval.dfy ===
/** The client side of a download: classify each polled status, find the produced MP3
    among the downloaded files, and check its tags. */
module Retrieval {
  import opened Wrappers
  import opened Text
  import opened TitleSplit
  import opened Id3
  import opened FileSelect
  import opened TagUpdate
  import opened Download

  /** What one poll of the status endpoint decides. */
  datatype Poll = Done(task: StatusJson) | Failed(message: string) | KeepPolling

  /** One round of `wait_for_task_completion`: a completed task is returned, an errored one
      raises with its detail (Python prints a missing detail as `None`), and anything else,
      including a non-200 response, is polled again. */
  function Classify(httpStatus: int, body: StatusJson): (p: Poll)
    ensures p.Done? <==> httpStatus == 200 && body.status == Some("completed")
    ensures p.Done? ==> p.task == body
    ensures p.Failed? <==> httpStatus == 200 && body.status == Some("error")
    ensures p.Failed? ==> p.message == "Task failed: " + body.error.GetOr("None")
  {
    if httpStatus != 200 then KeepPolling
    else if body.status == Some("completed") then Done(body)
    else if body.status == Some("error") then Failed("Task failed: " + body.error.GetOr("None"))
    else KeepPolling
  }

  /** Why `find_downloaded_mp3` raised. */
  datatype LookupError = NoFilePath | NoMp3(expected: string)

  /** The text each lookup error is raised with; a missing MP3 names the expected file. */
  function LookupMessage(e: LookupError): (m: string)
    ensures e.NoMp3? ==> EndsWith(m, e.expected)
  {
    match e
    case NoFilePath => "Task has no file path"
    case NoMp3(expected) => "No MP3 file found for task. Expected: " + expected
  }

  /** The message tells the errors apart, down to the expected name. */
  lemma LookupMessageDistinct(a: LookupError, b: LookupError)
    ensures LookupMessage(a) == LookupMessage(b) ==> a == b
  {
    var prefix := "No MP3 file found for task. Expected: ";
    if a.NoMp3? && b.NoMp3? && LookupMessage(a) == LookupMessage(b) {
      assert LookupMessage(a)[|prefix|..] == a.expected;
      assert LookupMessage(b)[|prefix|..] == b.expected;
    }
  }

  /** The recursive glob for names ending in ".mp3" below the download directory, in
      listing order. */
  function Mp3Files(files: seq<Entry>): (r: seq<Entry>)
    ensures forall e :: e in r <==> e in files && EndsWith(Name(e), ".mp3")
  {
    WithSuffix(files, ".mp3")
  }

  /** The exact-name loop of `find_downloaded_mp3`. */
  method ScanForName(mp3s: seq<Entry>, name: string) returns (r: Option<nat>)
    ensures r.Some? ==> FirstNamedAt(mp3s, name, r.value)
    ensures r.None? ==> !HasName(mp3s, name)
  {
    var i := 0;
    while i < |mp3s|
      invariant 0 <= i <= |mp3s|
      invariant forall j :: 0 <= j < i ==> Name(mp3s[j]) != name
    {
      if Name(mp3s[i]) == name {
        return Some(i);
      }
      i := i + 1;
    }
    return None;
  }

  /** `max(mp3s, key=mtime)`: the scan keeps the first entry of greatest mtime. */
  method ScanForNewest(mp3s: seq<Entry>) returns (best: nat)
    requires mp3s != []
    ensures NewestAt(mp3s, best)
  {
    best := 0;
    var k := 1;
    while k < |mp3s|
      invariant 1 <= k <= |mp3s|
      invariant best < k
      invariant forall j :: 0 <= j < k ==> mp3s[j].mtime <= mp3s[best].mtime
      invariant forall j :: 0 <= j < best ==> mp3s[j].mtime < mp3s[best].mtime
    {
      if mp3s[k].mtime > mp3s[best].mtime {
        best := k;
      }
      k := k + 1;
    }
  }

  /** `find_downloaded_mp3`: the file named like the last segment of the task's `file`,
      else the most recently modified MP3, else a not-found error. */
  method FindDownloadedMp3(body: StatusJson, files: seq<Entry>) returns (r: Result<Entry, LookupError>)
    ensures body.file.None? || body.file == Some("") ==> r == Failure(NoFilePath)
    ensures body.file.Some? && body.file.value != "" ==>
      r == (var mp3s := Mp3Files(files);
            if mp3s == [] then Failure(NoMp3(LastSegment(body.file.value)))
            else Success(Select(mp3s, Some(LastSegment(body.file.value))).value))
  {
    if body.file.None? || body.file.value == "" {
      return Failure(NoFilePath);
    }
    var name := LastSegment(body.file.value);
    var mp3s := Mp3Files(files);
    var found := ScanForName(mp3s, name);
    if found.Some? {
      SelectionUnique(mp3s, name, found.value, FindByName(mp3s, name).value);
      return Success(mp3s[found.value]);
    }
    if mp3s == [] {
      return Failure(NoMp3(name));
    }
    var best := ScanForNewest(mp3s);
    SelectionUnique(mp3s, name, best, Newest(mp3s));
    return Success(mp3s[best]);
  }

  /** The tag checks on a finished download: a tag exists, it has a TIT2, and the TIT2 and
      any TPE1 are UTF-8. */
  predicate TagsValid(tag: Option<Tag>) {
    && tag.Some?
    && Get(tag.value, TitleId).Some?
    && Get(tag.value, TitleId).value.encoding == Utf8
    && (Get(tag.value, ArtistId).Some? ==> Get(tag.value, ArtistId).value.encoding == Utf8)
  }

  /** Any tag the rewrite leaves passes the checks, and carries an artist exactly when the
      split found one. */
  lemma RewrittenTagsValid(disk: Disk, path: string, title: string)
    requires path in disk && IsMp3Path(path) && disk[path].parses
    ensures TagsValid(UpdateTags(disk, path, title).disk[path].tag)
    ensures var tag := UpdateTags(disk, path, title).disk[path].tag.value;
            Get(tag, TitleId) == Some(Frame(TitleId, Utf8, SplitTitle(title).title))
            && (Get(tag, ArtistId).Some? <==> SplitTitle(title).artist.Some?)
  {
    var tag := UpdateTags(disk, path, title).disk[path].tag.value;
    var p := SplitTitle(title);
    assert GetAll(tag, TitleId) == [Frame(TitleId, Utf8, p.title)];
  }
}

=== FILE: scenarios.dfy ===
/** The download-and-tag workflow end to end: the post-download step, the status the
    client polls, and the tags it finds on the produced file. */
module Scenarios {
  import opened Wrappers
  import opened Text
  import opened TitleSplit
  import opened Id3
  import opened FileSelect
  import opened TagUpdate
  import opened Download
  import opened Retrieval

  /** Whatever the post-download step ends with, the client's next poll stops: a completed
      task is handed back, a failed one raises with the recorded cause. */
  lemma FinishedTaskStopsPolling(task: Task, taskDir: string, listing: seq<Entry>, title: string, disk: Disk)
    ensures var f := Finish(task, taskDir, listing, title, disk);
            var body := Report(task, f.record);
            && (Resolve(task, listing).Some? ==> Classify(200, body) == Done(body))
            && (Resolve(task, listing).None? ==> Classify(200, body) == Failed("Task failed: " + MissingFileError))
  {
  }

  /** A task still waiting or processing keeps the client polling. */
  lemma UnfinishedTaskKeepsPolling(task: Task, s: Status)
    requires s == Waiting || s == Processing
    ensures Classify(200, Report(task, TaskRecord(s, None, None))) == KeepPolling
  {
  }

  /** The client looks up the very file the step tagged: the last segment of the served
      path is the name of the selected directory entry. */
  lemma ServedNameIsTaggedName(task: Task, taskDir: string, listing: seq<Entry>, title: string, disk: Disk)
    ensures var f := Finish(task, taskDir, listing, title, disk);
            f.record.status == Completed ==>
              && Report(task, f.record).file.Some?
              && LastSegment(Report(task, f.record).file.value) == f.record.file.value
  {
    var f := Finish(task, taskDir, listing, title, disk);
    if f.record.status == Completed {
      var e :| e in listing && f.record.file == Some(Name(e));
      assert LastSegment(e.path) == Name(e);
      assert '/' !in Name(e);
    }
  }

  /** A completed audio task whose file mutagen can handle ends with tags that pass the
      client's checks: TIT2 always, TPE1 only when the title had an artist, all UTF-8. */
  lemma CompletedAudioHasValidTags(task: Task, taskDir: string, listing: seq<Entry>, title: string, disk: Disk)
    requires task.kind == GetAudio && Resolve(task, listing).Some?
    requires var path := Join(taskDir, Name(Resolve(task, listing).value));
             path in disk && IsMp3Path(path) && disk[path].parses
    ensures var f := Finish(task, taskDir, listing, title, disk);
            var path := Join(taskDir, f.record.file.value);
            && f.tagging == Some(Written)
            && TagsValid(f.disk[path].tag)
            && (Get(f.disk[path].tag.value, ArtistId).Some? <==> SplitTitle(title).artist.Some?)
  {
    var f := Finish(task, taskDir, listing, title, disk);
    RewrittenTagsValid(disk, Join(taskDir, f.record.file.value), title);
  }

  lemma NameOfPlainFile(name: string, mtime: int)
    requires '/' !in name
    ensures Name(Entry(name, mtime)) == name
  {
    LastSegmentIsSuffix(name);
  }

  lemma JoinedMp3Path(dir: string, name: string)
    requires EndsWith(name, ".mp3")
    ensures IsMp3Path(Join(dir, name))
  {
    var p := Join(dir, name);
    assert p[|p| - 4..] == name[|name| - 4..];
  }

  /** An audio task whose directory lists just `name`, with the engine title
      `artist - track`, ends completed with that file tagged with the pair. */
  lemma AudioDownloadTagsFile(task: Task, dir: string, name: string, mtime: int, artist: string, track: string, disk: Disk)
    requires task.kind == GetAudio
    requires task.outputFilename == Some(name) || (task.outputFilename == None && EndsWith(name, task.extension))
    requires '/' !in name && EndsWith(name, ".mp3")
    requires Join(dir, name) in disk && disk[Join(dir, name)].parses
    requires !HasSeparator(artist + " ") && Trimmed(artist) && Trimmed(track) && artist != [] && track != []
    ensures var f := Finish(task, dir, [Entry(name, mtime)], artist + Separator + track, disk);
            && f.record == TaskRecord(Completed, Some(name), None)
            && f.tagging == Some(Written)
            && Carries(f.disk[Join(dir, name)].tag.value, TagPair(Some(artist), track))
  {
    NameOfPlainFile(name, mtime);
    JoinedMp3Path(dir, name);
    JoinThenSplit(artist, track);
  }

  /** The default-name audio case: "audio.mp3", "Test Artist - Test Track". */
  lemma AudioVector(dir: string, mtime: int, disk: Disk)
    requires Join(dir, "audio.mp3") in disk && disk[Join(dir, "audio.mp3")].parses
    ensures var task := Task("test-task-123", GetAudio, None, ".mp3");
            var f := Finish(task, dir, [Entry("audio.mp3", mtime)], "Test Artist - Test Track", disk);
            && f.record == TaskRecord(Completed, Some("audio.mp3"), None)
            && Carries(f.disk[Join(dir, "audio.mp3")].tag.value, TagPair(Some("Test Artist"), "Test Track"))
  {
    assert "Test Artist - Test Track" == "Test Artist" + Separator + "Test Track";
    AudioDownloadTagsFile(Task("test-task-123", GetAudio, None, ".mp3"), dir, "audio.mp3", mtime, "Test Artist", "Test Track", disk);
  }

  /** The custom-name audio case: "my_custom_song.mp3", "Custom Artist - Custom Track". */
  lemma CustomFilenameVector(dir: string, mtime: int, disk: Disk)
    requires Join(dir, "my_custom_song.mp3") in disk && disk[Join(dir, "my_custom_song.mp3")].parses
    ensures var task := Task("custom-task-789", GetAudio, Some("my_custom_song.mp3"), ".mp3");
            var f := Finish(task, dir, [Entry("my_custom_song.mp3", mtime)], "Custom Artist - Custom Track", disk);
            && f.record == TaskRecord(Completed, Some("my_custom_song.mp3"), None)
            && Carries(f.disk[Join(dir, "my_custom_song.mp3")].tag.value, TagPair(Some("Custom Artist"), "Custom Track"))
  {
    assert "Custom Artist - Custom Track" == "Custom Artist" + Separator + "Custom Track";
    AudioDownloadTagsFile(Task("custom-task-789", GetAudio, Some("my_custom_song.mp3"), ".mp3"), dir, "my_custom_song.mp3", mtime,
                          "Custom Artist", "Custom Track", disk);
  }

  /** The video case: no tag rewrite runs. The video extension ".mp4" is assumed, since
      the task in the test names no output format. */
  lemma VideoVector(dir: string, mtime: int, disk: Disk)
    ensures var task := Task("test-video-456", GetVideo, None, ".mp4");
            var f := Finish(task, dir, [Entry("video.mp4", mtime)], "Video Title", disk);
            && f.record == TaskRecord(Completed, Some("video.mp4"), None)
            && f.tagging == None
            && f.disk == disk
  {
    NameOfPlainFile("video.mp4", mtime);
  }

  /** A readable file whose ID3 header was deleted, as the fixture is after `audio.delete()`,
      gets a new tag holding both frames of "Artist - Track". */
  lemma HeaderlessFixtureVector(disk: Disk, path: string)
    requires EndsWith(path, ".mp3")
    requires path in disk && disk[path] == AudioFile(true, None)
    ensures var tag := UpdateTags(disk, path, "Artist - Track").disk[path].tag;
            tag.Some? && Carries(tag.value, TagPair(Some("Artist"), "Track"))
  {
    ArtistTrackVector();
    HeaderCreated(disk, path, "Artist - Track");
  }

  lemma ArtistTrackVector()
    ensures SplitTitle("Artist - Track") == TagPair(Some("Artist"), "Track")
  {
    assert "Artist - Track" == "Artist" + Separator + "Track";
    DashFreeJoinable("Artist");
    JoinThenSplit("Artist", "Track");
  }

  /** Old TPE1 and TIT2 frames on the fixture are replaced: exactly one of each is left,
      holding "New Artist" and "New Track". */
  lemma ReplacesOldFramesVector(disk: Disk, path: string)
    requires EndsWith(path, ".mp3")
    requires path in disk
    requires disk[path] == AudioFile(true, Some([Frame(ArtistId, Utf8, "Old Artist"), Frame(TitleId, Utf8, "Old Track")]))
    ensures var tag := UpdateTags(disk, path, "New Artist - New Track").disk[path].tag.value;
            && GetAll(tag, ArtistId) == [Frame(ArtistId, Utf8, "New Artist")]
            && GetAll(tag, TitleId) == [Frame(TitleId, Utf8, "New Track")]
  {
    assert "New Artist - New Track" == "New Artist" + Separator + "New Track";
    DashFreeJoinable("New Artist");
    JoinThenSplit("New Artist", "New Track");
  }

  /** An empty title writes an empty TIT2 and no TPE1. */
  lemma EmptyTitleVector(disk: Disk, path: string)
    requires EndsWith(path, ".mp3") && path in disk && disk[path].parses
    ensures var tag := UpdateTags(disk, path, "").disk[path].tag.value;
            && GetAll(tag, TitleId) == [Frame(TitleId, Utf8, "")]
            && GetAll(tag, ArtistId) == []
  {
    EmptyVector();
  }

  /** A missing file and a non-MP3 file are both skipped with their log line, leaving the
      disk as it was. */
  lemma SkipVectors(disk: Disk)
    requires "does_not_exist.mp3" !in disk && "test.txt" in disk
    ensures UpdateTags(disk, "does_not_exist.mp3", "Title") == Update(disk, FileMissing)
    ensures LogLine(FileMissing) == Some("ERROR: File does not exist")
    ensures UpdateTags(disk, "test.txt", "Title") == Update(disk, NotMp3)
    ensures LogLine(NotMp3) == Some("Skipping non-MP3 file")
  {
  }
}

=== FILE: seqs.dfy ===
/** Python's sequence repetition, `s * n`, shared by the title vectors and the MP3
    fixture. */
module Seqs {

  /** `s * n`: `n` copies of `s`, back to back. What each position holds is stated by
      `RepeatIndex`. */
  function Repeat<T>(s: seq<T>, n: nat): (r: seq<T>)
    ensures |r| == n * |s|
    ensures forall x :: x in r ==> x in s
  {
    if n == 0 then [] else
      var rest := Repeat(s, n - 1);
      assert |s + rest| == n * |s| by { MulSub(n, 1, |s|); }
      s + rest
  }

  /** Position `i` of `s * n` holds the element of `s` at position `i % |s|`. */
  lemma {:induction false} RepeatIndex<T>(s: seq<T>, n: nat)
    ensures forall i :: 0 <= i < |Repeat(s, n)| ==> Repeat(s, n)[i] == s[i % |s|]
  {
    if n > 0 {
      var r, rest := Repeat(s, n), Repeat(s, n - 1);
      RepeatIndex(s, n - 1);
      forall i | 0 <= i < |r| ensures r[i] == s[i % |s|] {
        if i < |s| {
          ModUnique(i, |s|, 0, i);
        } else {
          ModShift(i, |s|);
          assert r[i] == rest[i - |s|];
        }
      }
    }
  }

  /** Multiplication distributes over subtraction. */
  lemma MulSub(x: int, y: int, m: int)
    ensures (x - y) * m == x * m - y * m
  {
  }

  /** At least one whole `m` is at least `m`. */
  lemma MulAtLeast(k: int, m: int)
    requires k >= 1 && m > 0
    ensures k * m >= m
  {
  }

  /** Quotient and remainder are unique: any split `q * m + r` with `0 <= r < m` gives
      the remainder `r`. */
  lemma ModUnique(a: int, m: int, q: int, r: int)
    requires m > 0 && 0 <= r < m && a == q * m + r
    ensures a % m == r
  {
    var q2, r2 := a / m, a % m;
    assert a == q2 * m + r2;
    if q2 > q {
      MulSub(q2, q, m);
      MulAtLeast(q2 - q, m);
      assert false;
    } else if q2 < q {
      MulSub(q, q2, m);
      MulAtLeast(q - q2, m);
      assert false;
    }
  }

  /** Stepping back one whole copy keeps an index's position within the copy. */
  lemma ModShift(i: int, m: int)
    requires 0 < m <= i
    ensures (i - m) % m == i % m
  {
    var q, r := i / m, i % m;
    assert i == q * m + r;
    MulSub(q, 1, m);
    ModUnique(i - m, m, q - 1, r);
  }
}

=== FILE: tag_update.dfy ===
/** `_update_mp3_id3_tags(path, title)`: rewrite the artist and title frames of one file,
    never raising. The file system is a map from path to file; mutagen's parse and save
    are folded into whether the file `parses`. */
module TagUpdate {
  import opened Wrappers
  import opened Text
  import opened TitleSplit
  import opened Id3

  /** One file on disk: whether mutagen can read and write it, and its ID3 tag, `None`
      when the file has no ID3 header yet. */
  datatype AudioFile = AudioFile(parses: bool, tag: Option<Tag>)

  type Disk = map<string, AudioFile>

  /** How a call ended. Only `Written` touches the disk; the others are logged. */
  datatype Outcome = Written | FileMissing | NotMp3 | TagError

  datatype Update = Update(disk: Disk, outcome: Outcome)

  /** The line each non-written outcome logs. */
  function LogLine(o: Outcome): (line: Option<string>)
    ensures line.None? <==> o == Written
  {
    match o
    case Written => None
    case FileMissing => Some("ERROR: File does not exist")
    case NotMp3 => Some("Skipping non-MP3 file")
    case TagError => Some("ERROR updating ID3 tags")
  }

  /** The extension check: the path ends in ".mp3". */
  predicate IsMp3Path(path: string) {
    EndsWith(path, ".mp3")
  }

  /** Checking the whole path is checking the file's name, since ".mp3" holds no slash. */
  lemma Mp3PathByName(path: string)
    ensures IsMp3Path(path) <==> EndsWith(LastSegment(path), ".mp3")
  {
    LastSegmentIsSuffix(path);
    var r := LastSegment(path);
    if EndsWith(r, ".mp3") {
      assert path[|path| - 4..] == r[|r| - 4..];
    }
  }

  /** The tag the rewrite starts from: the file's tag, or a fresh empty one when it has no
      ID3 header. */
  function ExistingTag(f: AudioFile): Tag {
    f.tag.GetOr([])
  }

  /** Check existence, then the extension, then rewrite; a file mutagen cannot handle is
      logged and left alone. Every input yields an `Update`: nothing is raised. */
  function UpdateTags(disk: Disk, path: string, title: string): (u: Update)
    ensures u.outcome == FileMissing <==> path !in disk
    ensures u.outcome == NotMp3 <==> path in disk && !IsMp3Path(path)
    ensures u.outcome == TagError <==> path in disk && IsMp3Path(path) && !disk[path].parses
    ensures u.outcome != Written ==> u.disk == disk
    ensures u.disk.Keys == disk.Keys
    ensures forall other :: other in disk && other != path ==> u.disk[other] == disk[other]
    ensures u.outcome == Written ==>
      && u.disk[path].parses
      && u.disk[path].tag.Some?
      && Carries(u.disk[path].tag.value, SplitTitle(title))
      && SameOtherFrames(u.disk[path].tag.value, ExistingTag(disk[path]))
  {
    if path !in disk then Update(disk, FileMissing)
    else if !IsMp3Path(path) then Update(disk, NotMp3)
    else if !disk[path].parses then Update(disk, TagError)
    else
      var tag := Rewrite(ExistingTag(disk[path]), SplitTitle(title));
      Update(disk[path := AudioFile(true, Some(tag))], Written)
  }

  /** Running the update twice with different titles leaves what the second alone would
      leave: exactly one TPE1/TIT2 pair, with the second title's values. */
  lemma UpdateTwice(disk: Disk, path: string, first: string, second: string)
    ensures UpdateTags(UpdateTags(disk, path, first).disk, path, second) == UpdateTags(disk, path, second)
  {
    if path in disk && IsMp3Path(path) && disk[path].parses {
      var e := ExistingTag(disk[path]);
      var once := AudioFile(true, Some(Rewrite(e, SplitTitle(first))));
      var last := AudioFile(true, Some(Rewrite(e, SplitTitle(second))));
      var mid := disk[path := once];
      UpdateWritten(disk, path, first);
      UpdateWritten(mid, path, second);
      UpdateWritten(disk, path, second);
      RewriteTwice(e, SplitTitle(first), SplitTitle(second));
      assert mid[path := last] == disk[path := last];
    }
  }

  lemma UpdateWritten(disk: Disk, path: string, title: string)
    requires path in disk && IsMp3Path(path) && disk[path].parses
    ensures UpdateTags(disk, path, title)
         == Update(disk[path := AudioFile(true, Some(Rewrite(ExistingTag(disk[path]), SplitTitle(title))))], Written)
  {
  }

  /** A file without an ID3 header gets one, holding just the new pair. */
  lemma HeaderCreated(disk: Disk, path: string, title: string)
    requires path in disk && IsMp3Path(path) && disk[path] == AudioFile(true, None)
    ensures UpdateTags(disk, path, title).disk[path].tag == Some(NewFrames(SplitTitle(title)))
  {
    var p := SplitTitle(title);
    assert ExistingTag(disk[path]) == [];
    assert Remove(Remove([], ArtistId), TitleId) == [];
    assert Rewrite([], p) == [] + NewFrames(p) == NewFrames(p);
    assert UpdateTags(disk, path, title).disk == disk[path := AudioFile(true, Some(Rewrite([], p)))];
  }
}

=== FILE: text.dfy ===
/** String helpers the tag rewrite and the file lookup are built from:
    Python's `strip()`, `find(" - ")`, `endswith(...)` and `split('/')[-1]`. */
module Text {
  import opened Wrappers

  /** The ASCII characters `str.strip()` removes: those `str.isspace()` holds for, which
      are tab through carriage return, the file, group, record and unit separators, and
      the space. */
  predicate IsSpace(c: char) {
    ('\t' <= c <= '\r') || ('\U{1C}' <= c <= '\U{1F}') || c == ' '
  }

  predicate AllSpace(s: string) {
    forall i :: 0 <= i < |s| ==> IsSpace(s[i])
  }

  /** Neither end of `s` is whitespace: the shape of every `strip()` result. */
  predicate Trimmed(s: string) {
    |s| == 0 || (!IsSpace(s[0]) && !IsSpace(s[|s| - 1]))
  }

  /** `lstrip()`: `s` without its leading whitespace. */
  function TrimStart(s: string): (r: string)
    ensures |r| <= |s|
    ensures |r| == 0 || !IsSpace(r[0])
  {
    if |s| > 0 && IsSpace(s[0]) then TrimStart(s[1..]) else s
  }

  /** What `lstrip()` keeps is a suffix, and what it drops is whitespace. */
  lemma {:induction false} TrimStartShape(s: string)
    ensures TrimStart(s) == s[|s| - |TrimStart(s)|..]
    ensures AllSpace(s[..|s| - |TrimStart(s)|])
    decreases |s|
  {
    if |s| > 0 && IsSpace(s[0]) {
      TrimStartShape(s[1..]);
      var r := TrimStart(s);
      assert s[1..][..|s| - 1 - |r|] == s[1..|s| - |r|];
    }
  }

  /** `rstrip()`: `s` without its trailing whitespace. */
  function TrimEnd(s: string): (r: string)
    ensures |r| <= |s|
    ensures |r| == 0 || !IsSpace(r[|r| - 1])
  {
    if |s| > 0 && IsSpace(s[|s| - 1]) then TrimEnd(s[..|s| - 1]) else s
  }

  /** What `rstrip()` keeps is a prefix, and what it drops is whitespace. */
  lemma {:induction false} TrimEndShape(s: string)
    ensures TrimEnd(s) == s[..|TrimEnd(s)|]
    ensures AllSpace(s[|TrimEnd(s)|..])
    decreases |s|
  {
    if |s| > 0 && IsSpace(s[|s| - 1]) {
      TrimEndShape(s[..|s| - 1]);
      var r := TrimEnd(s);
      assert s[..|s| - 1][|r|..] == s[|r|..|s| - 1];
    }
  }

  /** `strip()`: `s` with the whitespace at both ends removed. */
  function Strip(s: string): (r: string)
    ensures Trimmed(r)
    ensures |r| <= |s|
  {
    var t := TrimStart(s);
    TrimEndShape(t);
    TrimEnd(t)
  }

  /** What `strip()` removes is whitespace, and only from the two ends. */
  lemma StripRemovesPadding(s: string)
    ensures exists a :: 0 <= a <= |s| - |Strip(s)| && s[a..a + |Strip(s)|] == Strip(s)
                        && AllSpace(s[..a]) && AllSpace(s[a + |Strip(s)|..])
  {
    var t := TrimStart(s);
    var r := TrimEnd(t);
    TrimStartShape(s);
    TrimEndShape(t);
    var a := |s| - |t|;
    assert s[a..] == t;
    assert s[a..a + |r|] == t[..|r|] == r;
    assert s[a + |r|..] == t[|r|..];
    assert AllSpace(s[..a]) && AllSpace(s[a + |r|..]);
    assert r == Strip(s);
  }

  lemma {:induction false} TrimStartPadded(p: string, m: string, q: string)
    requires AllSpace(p) && m != [] && !IsSpace(m[0])
    ensures TrimStart(p + m + q) == m + q
    decreases |p|
  {
    if p == [] {
      assert p + m + q == m + q;
    } else {
      assert (p + m + q)[1..] == p[1..] + m + q;
      TrimStartPadded(p[1..], m, q);
    }
  }

  lemma {:induction false} TrimEndPadded(m: string, q: string)
    requires AllSpace(q) && m != [] && !IsSpace(m[|m| - 1])
    ensures TrimEnd(m + q) == m
    decreases |q|
  {
    if q == [] {
      assert m + q == m;
    } else {
      assert (m + q)[..|m + q| - 1] == m + q[..|q| - 1];
      TrimEndPadded(m, q[..|q| - 1]);
    }
  }

  lemma {:induction false} TrimStartAllSpace(s: string)
    requires AllSpace(s)
    ensures TrimStart(s) == []
    decreases |s|
  {
    if s != [] {
      TrimStartAllSpace(s[1..]);
    }
  }

  /** `strip()` removes exactly the whitespace padding around a trimmed core. */
  lemma StripPadded(p: string, m: string, q: string)
    requires AllSpace(p) && AllSpace(q) && Trimmed(m)
    ensures Strip(p + m + q) == m
  {
    if m == [] {
      assert AllSpace(p + m + q);
      TrimStartAllSpace(p + m + q);
    } else {
      TrimStartPadded(p, m, q);
      TrimEndPadded(m, q);
    }
  }

  /** Stripping twice is stripping once. */
  lemma {:induction false} StripIdempotent(s: string)
    ensures Strip(Strip(s)) == Strip(s)
  {
    StripPadded([], Strip(s), []);
    assert [] + Strip(s) + [] == Strip(s);
  }

  /** The separator `split(" - ", 1)` cuts at. */
  const Separator: string := " - "

  /** `s[i..i + 3] == " - "`, stated character by character. */
  predicate SeparatorAt(s: string, i: int) {
    0 <= i && i + |Separator| <= |s| && s[i] == ' ' && s[i + 1] == '-' && s[i + 2] == ' '
  }

  predicate HasSeparator(s: string) {
    exists i | 0 <= i < |s| :: SeparatorAt(s, i)
  }

  /** `i` is where the first separator of `s` begins. */
  predicate FirstSeparatorAt(s: string, i: int) {
    SeparatorAt(s, i) && forall j :: 0 <= j < i ==> !SeparatorAt(s, j)
  }

  function FindSeparatorFrom(s: string, from: nat): (r: Option<nat>)
    ensures r.Some? ==> from <= r.value && SeparatorAt(s, r.value)
    ensures forall j :: from <= j && (r.None? || j < r.value) ==> !SeparatorAt(s, j)
    decreases |s| - from
  {
    if from + |Separator| > |s| then None
    else if SeparatorAt(s, from) then Some(from)
    else FindSeparatorFrom(s, from + 1)
  }

  /** `s.find(" - ")`, with `None` for Python's -1. */
  function FindSeparator(s: string): (r: Option<nat>)
    ensures r.Some? ==> FirstSeparatorAt(s, r.value)
    ensures r.None? <==> !HasSeparator(s)
  {
    FindSeparatorFrom(s, 0)
  }

  predicate EndsWith(s: string, suffix: string) {
    |suffix| <= |s| && s[|s| - |suffix|..] == suffix
  }

  /** Where the segment ending at `end` begins: just after the last slash before `end`,
      or 0 when there is none. */
  function SegmentStart(s: string, end: nat): (k: nat)
    requires end <= |s|
    ensures k <= end
    ensures k > 0 ==> s[k - 1] == '/'
    ensures forall j :: k <= j < end ==> s[j] != '/'
    decreases end
  {
    if end == 0 then 0
    else if s[end - 1] == '/' then end
    else SegmentStart(s, end - 1)
  }

  /** `s.split('/')[-1]`: the text after the last slash, or all of `s`. */
  function LastSegment(s: string): (r: string)
    ensures '/' !in r
  {
    if |s| == 0 then s
    else if s[|s| - 1] == '/' then []
    else LastSegment(s[..|s| - 1]) + [s[|s| - 1]]
  }

  /** The last segment of the first `end` characters runs from `SegmentStart` to `end`. */
  lemma {:induction false} LastSegmentOfPrefix(s: string, end: nat)
    requires end <= |s|
    ensures LastSegment(s[..end]) == s[SegmentStart(s, end)..end]
    decreases end
  {
    if end > 0 {
      var p := s[..end];
      assert p[..|p| - 1] == s[..end - 1];
      assert p[|p| - 1] == s[end - 1];
      if s[end - 1] != '/' {
        LastSegmentOfPrefix(s, end - 1);
        var k := SegmentStart(s, end - 1);
        assert LastSegment(p) == s[k..end - 1] + [s[end - 1]];
        assert s[k..end] == s[k..end - 1] + [s[end - 1]];
      }
    }
  }

  /** The last segment is a suffix of the path, preceded by a slash unless it is all of it. */
  lemma {:induction false} LastSegmentIsSuffix(s: string)
    ensures |LastSegment(s)| <= |s| && s[|s| - |LastSegment(s)|..] == LastSegment(s)
    ensures |LastSegment(s)| < |s| ==> s[|s| - |LastSegment(s)| - 1] == '/'
  {
    LastSegmentOfPrefix(s, |s|);
    assert s[..|s|] == s;
  }

  /** A slash at `k - 1` followed by no slash up to `end` fixes where the segment starts. */
  lemma {:induction false} SegmentStartAfterSlash(s: string, k: nat, end: nat)
    requires 0 < k <= end <= |s| && s[k - 1] == '/'
    requires forall j :: k <= j < end ==> s[j] != '/'
    ensures SegmentStart(s, end) == k
    decreases end
  {
    if end > k {
      SegmentStartAfterSlash(s, k, end - 1);
    }
  }

  /** Joining a directory and a slash-free name, the last segment is the name. */
  lemma LastSegmentOfJoin(dir: string, name: string)
    requires '/' !in name
    ensures LastSegment(dir + "/" + name) == name
  {
    var s := dir + "/" + name;
    var k := |dir| + 1;
    forall j | k <= j < |s|
      ensures s[j] != '/'
    {
      assert s[j] == name[j - k];
    }
    SegmentStartAfterSlash(s, k, |s|);
    LastSegmentOfPrefix(s, |s|);
    assert s[..|s|] == s;
    assert s[k..] == name;
  }
}

=== FILE: title_split.dfy ===
/** How an extracted video title becomes an artist/title pair:
    split at the first " - ", strip both halves. */
module TitleSplit {
  import opened Wrappers
  import opened Text
  import opened Seqs

  /** What the rewrite writes: an optional artist (TPE1) and a title (TIT2). */
  datatype TagPair = TagPair(artist: Option<string>, title: string)

  /** Python's `title.split(" - ", 1)` followed by `strip()` of both halves. When there is
      no separator, or one half is blank, the whole stripped title is the title and no
      artist is written. */
  function SplitTitle(t: string): (r: TagPair)
    ensures Trimmed(r.title)
    ensures r.artist.Some? ==> Trimmed(r.artist.value) && r.artist.value != [] && r.title != []
    ensures r.artist.None? ==> r.title == Strip(t)
    ensures !HasSeparator(t) ==> r.artist.None?
  {
    match FindSeparator(t)
    case None => TagPair(None, Strip(t))
    case Some(i) =>
      var artist := Strip(t[..i]);
      var title := Strip(t[i + |Separator|..]);
      if artist != [] && title != [] then TagPair(Some(artist), title)
      else TagPair(None, Strip(t))
  }

  /** Only one position can be the first separator. */
  lemma FirstSeparatorUnique(t: string, i: int, j: int)
    requires FirstSeparatorAt(t, i) && FirstSeparatorAt(t, j)
    ensures i == j
  {
  }

  /** The split is decided by the first separator alone: the text before it is the artist
      and everything after it is the title, provided neither is blank. */
  lemma SplitAtFirstSeparator(t: string, i: int)
    requires FirstSeparatorAt(t, i)
    ensures var artist := Strip(t[..i]);
            var title := Strip(t[i + |Separator|..]);
            SplitTitle(t) == if artist != [] && title != [] then TagPair(Some(artist), title)
                             else TagPair(None, Strip(t))
  {
    var k := FindSeparator(t);
    assert k.Some?;
    FirstSeparatorUnique(t, i, k.value);
  }

  /** A separator needs a dash, so dash-free text holds none. */
  lemma NoDashNoSeparator(s: string)
    requires '-' !in s
    ensures !HasSeparator(s)
  {
    forall i | 0 <= i < |s|
      ensures !SeparatorAt(s, i)
    {
      if i + |Separator| <= |s| {
        assert s[i + 1] in s;
      }
    }
  }

  /** In `head + " - " + tail` the first separator is the joining one when `head`, even
      followed by the separator's leading space, holds no separator of its own. */
  lemma FirstSeparatorOfJoined(head: string, tail: string)
    requires !HasSeparator(head + " ")
    ensures FirstSeparatorAt(head + Separator + tail, |head|)
  {
    var t := head + Separator + tail;
    var n := |head|;
    assert SeparatorAt(t, n);
    forall j | 0 <= j < n
      ensures !SeparatorAt(t, j)
    {
      if j == n - 1 {
        assert t[j + 1] == ' ';
      } else if j + |Separator| <= n + 1 {
        assert !SeparatorAt(head + " ", j);
      }
    }
    assert FirstSeparatorAt(t, n);
  }

  /** Splitting `head + " - " + tail` gives the stripped `head` as artist and the stripped
      `tail`, further separators included, as title. */
  lemma SplitJoined(head: string, tail: string)
    requires !HasSeparator(head + " ")
    requires Strip(head) != [] && Strip(tail) != []
    ensures SplitTitle(head + Separator + tail) == TagPair(Some(Strip(head)), Strip(tail))
  {
    var t := head + Separator + tail;
    FirstSeparatorOfJoined(head, tail);
    SplitAtFirstSeparator(t, |head|);
    assert t[..|head|] == head;
    assert t[|head| + |Separator|..] == tail;
  }

  /** Round trip: joining an artist that holds no " - " of its own, not even across its
      end, and a title with " - " and splitting again gives both back, whatever further
      separators the title holds. */
  lemma JoinThenSplit(artist: string, title: string)
    requires !HasSeparator(artist + " ")
    requires Trimmed(artist) && Trimmed(title) && artist != [] && title != []
    ensures SplitTitle(artist + Separator + title) == TagPair(Some(artist), title)
  {
    StripPadded([], artist, []);
    StripPadded([], title, []);
    assert [] + artist + [] == artist;
    assert [] + title + [] == title;
    SplitJoined(artist, title);
  }

  lemma DashFreePadded(p: string, m: string, q: string)
    requires AllSpace(p) && AllSpace(q) && '-' !in m
    ensures '-' !in p + m + q + " "
  {
    var s := p + m + q + " ";
    forall i | 0 <= i < |s|
      ensures s[i] != '-'
    {
      if i < |p| {
        assert s[i] == p[i];
      } else if i < |p| + |m| {
        assert s[i] == m[i - |p|];
      } else if i < |p| + |m| + |q| {
        assert s[i] == q[i - |p| - |m|];
      }
    }
  }

  /** A dash-free artist can always be joined: it holds no separator, even followed by a
      space. */
  lemma DashFreeJoinable(artist: string)
    requires '-' !in artist
    ensures !HasSeparator(artist + " ")
  {
    DashFreePadded([], artist, []);
    assert [] + artist + [] + " " == artist + " ";
    NoDashNoSeparator(artist + " ");
  }

  /** Whitespace padding around the artist and the title is dropped: splitting
      `p1 + artist + q1 + " - " + p2 + title + q2` gives `artist` and `title`. */
  lemma PaddedJoinThenSplit(p1: string, artist: string, q1: string, p2: string, title: string, q2: string)
    requires AllSpace(p1) && AllSpace(q1) && AllSpace(p2) && AllSpace(q2)
    requires !HasSeparator(p1 + artist + q1 + " ")
    requires Trimmed(artist) && Trimmed(title) && artist != [] && title != []
    ensures SplitTitle(p1 + artist + q1 + Separator + p2 + title + q2) == TagPair(Some(artist), title)
  {
    var head := p1 + artist + q1;
    var tail := p2 + title + q2;
    assert p1 + artist + q1 + Separator + p2 + title + q2 == head + Separator + tail;
    StripPadded(p1, artist, q1);
    StripPadded(p2, title, q2);
    SplitJoined(head, tail);
  }

  /** "The Beatles - Hey Jude" gives artist "The Beatles" and title "Hey Jude". */
  lemma BeatlesVector()
    ensures SplitTitle("The Beatles - Hey Jude") == TagPair(Some("The Beatles"), "Hey Jude")
  {
    assert "The Beatles - Hey Jude" == "The Beatles" + Separator + "Hey Jude";
    DashFreeJoinable("The Beatles");
    JoinThenSplit("The Beatles", "Hey Jude");
  }

  /** Only the first separator splits: "Artist Name - Track Title - Remix". */
  lemma FirstSeparatorVector()
    ensures SplitTitle("Artist Name - Track Title - Remix") == TagPair(Some("Artist Name"), "Track Title - Remix")
  {
    assert "Artist Name - Track Title - Remix" == "Artist Name" + Separator + "Track Title - Remix";
    DashFreeJoinable("Artist Name");
    JoinThenSplit("Artist Name", "Track Title - Remix");
  }

  /** Whitespace around both halves is stripped: "  Artist  -  Track  ". */
  lemma WhitespaceVector()
    ensures SplitTitle("  Artist  -  Track  ") == TagPair(Some("Artist"), "Track")
  {
    assert "  Artist  -  Track  " == "  " + "Artist" + " " + Separator + " " + "Track" + "  ";
    DashFreePadded("  ", "Artist", " ");
    NoDashNoSeparator("  " + "Artist" + " " + " ");
    PaddedJoinThenSplit("  ", "Artist", " ", " ", "Track", "  ");
  }

  /** A title without separator is kept whole, with no artist: "Just A Title". */
  lemma NoSeparatorVector()
    ensures SplitTitle("Just A Title") == TagPair(None, "Just A Title")
  {
    NoDashNoSeparator("Just A Title");
    StripPadded([], "Just A Title", []);
    assert [] + "Just A Title" + [] == "Just A Title";
  }

  /** The empty title gives an empty title and no artist. */
  lemma EmptyVector()
    ensures SplitTitle("") == TagPair(None, "")
  {
    NoDashNoSeparator("");
  }

  /** Japanese text passes through unchanged. */
  lemma JapaneseVector()
    ensures SplitTitle("日本語アーティスト - 日本語トラック") == TagPair(Some("日本語アーティスト"), "日本語トラック")
  {
    assert "日本語アーティスト - 日本語トラック" == "日本語アーティスト" + Separator + "日本語トラック";
    DashFreeJoinable("日本語アーティスト");
    JoinThenSplit("日本語アーティスト", "日本語トラック");
  }

  /** Emoji, brackets and parentheses pass through unchanged. */
  lemma SpecialCharactersVector()
    ensures SplitTitle("Artist 🎵 - Track (feat. Guest) [2024]") == TagPair(Some("Artist 🎵"), "Track (feat. Guest) [2024]")
  {
    assert "Artist 🎵 - Track (feat. Guest) [2024]" == "Artist 🎵" + Separator + "Track (feat. Guest) [2024]";
    DashFreeJoinable("Artist 🎵");
    JoinThenSplit("Artist 🎵", "Track (feat. Guest) [2024]");
  }

  /** A dash inside the artist's name does not split it: "Jay-Z - Song". */
  lemma DashedArtistVector()
    ensures SplitTitle("Jay-Z - Song") == TagPair(Some("Jay-Z"), "Song")
  {
    assert "Jay-Z - Song" == "Jay-Z" + Separator + "Song";
    assert !HasSeparator("Jay-Z" + " ") by {
      var s := "Jay-Z" + " ";
      forall i | 0 <= i < |s| ensures !SeparatorAt(s, i) {
        assert s[3] == '-' && s[2] != ' ';
      }
    }
    JoinThenSplit("Jay-Z", "Song");
  }

  /** Nothing is truncated: an artist and a title of any length survive the split. */
  lemma LongTitleVector(n: nat)
    requires n > 0
    ensures SplitTitle(Repeat("A", n) + Separator + Repeat("T", n)) == TagPair(Some(Repeat("A", n)), Repeat("T", n))
  {
    var a, t := Repeat("A", n), Repeat("T", n);
    forall i | 0 <= i < n ensures a[i] == 'A' && t[i] == 'T' {
      assert a[i] in a && t[i] in t;
    }
    assert '-' !in a;
    assert Trimmed(a) && Trimmed(t);
    DashFreeJoinable(a);
    JoinThenSplit(a, t);
  }

  /** The 200-character case: "A" * 200 + " - " + "T" * 200. */
  lemma TwoHundredCharacterVector()
    ensures SplitTitle(Repeat("A", 200) + Separator + Repeat("T", 200)) == TagPair(Some(Repeat("A", 200)), Repeat("T", 200))
  {
    LongTitleVector(200);
  }
}

=== FILE: wrappers.dfy ===
/** Optional values and results shared by every module of the model. */
module Wrappers {

  /** An optional value: `None` plays the role of Python's `None`. */
  datatype Option<+T> = None | Some(value: T) {
    function GetOr(default: T): T {
      match this
      case Some(v) => v
      case None => default
    }
  }

  /** The value of an operation, or the error it raised. */
  datatype Result<+R, +E> = Success(value: R) | Failure(error: E)
}
